=== FILE: README.md ===
# BooleanArrayList in Dafny

A model of `BooleanArrayList` from KMMDataStructure: a growable list of
booleans that avoids boxing. It is backed by a `BooleanArray` buffer `data`,
whose length is the capacity, and a logical length `size`. The list is not
thread-safe and is used from one thread only.

The model has two layers:

- `BooleanArrayLists` is the value model. The datatype
  `BooleanArrayList(data, size)` holds the same two fields as the Kotlin
  class. `Valid` states `0 <= size <= |data|`, and `Elements` is the valid
  prefix `data[..size]`. Each mutating method of the class is a function
  from the state before the call to the state after it. A call that throws
  returns `Err`. Contracts are stated against `Elements`, so the stale slots
  past `size` never show up in them.
- `ArrayBacked.BooleanArrayList` is the object with an `array<bool>`,
  updated in place. It has the copy loop of `add`, the left-shift loop of
  `removeAtIndex`, and the forward and backward scans. Each method is proved
  to produce the state that the value model computes.

Supporting modules:

- `Results` holds the error and nullable types.
- `Sequences` holds reference definitions on plain sequences: delete the
  first occurrence, delete each, the present values, filter out.
- `Growth` holds the doubling policy over many appends.
- `DebugStrings` holds `toString` and a parser that it is proved against.
- `Iterators` holds the cursor iterator.

Errors: `IndexOutOfBounds` is raised by the list's own `index >= size`
checks. It also stands for the platform's array-index failures on negative
indices, because on the JVM `ArrayIndexOutOfBoundsException` is a subclass
of `IndexOutOfBoundsException`. `IllegalArgument` is what `copyOfRange`
raises when `from > to`. The range-copy failures follow the JVM
implementation of `copyOfRange`.

Where the code and its documentation disagree, the model follows the code.
`subListWithSafe` is documented as safe, but it can throw. `removeLast()` on
an empty list should fail, but it does not. `removeAtIndex` with an index
near `Int.MIN_VALUE` should fail, but it drops the last element instead. All
three are under "## Findings".
The iterator's `Remove` delegates to the corrected `RemoveAtIndex`.
`Iterators.RemoveAsWritten` models the written `remove()`. Before any
`next()` on an empty list, it reaches the same `removeAtIndex(-1)` path.

## Model

| member | source | states |
|---|---|---|
| BooleanArrayLists.New | datastructure/src/commonMain/kotlin/com/lt/data_structure/basic_value/BooleanArrayList.kt:39-46 | a new list is empty and its buffer has exactly `initSize` slots |
| BooleanArrayLists.FromArray | datastructure/src/commonMain/kotlin/com/lt/data_structure/basic_value/BooleanArrayList.kt:28-31 | the list built from an array holds exactly that array, and its capacity is the array's length |
| BooleanArrayLists.FromList | datastructure/src/commonMain/kotlin/com/lt/data_structure/basic_value/BooleanArrayList.kt:33 | the copy has the same elements as the original, and its capacity is the original's `size`, so spare capacity is not copied |
| BooleanArrayLists.FromCollection | datastructure/src/commonMain/kotlin/com/lt/data_structure/basic_value/BooleanArrayList.kt:35-37 | the list built from a collection holds it in order, and its capacity is exactly the collection's size because no add has to grow the buffer |
| BooleanArrayLists.Get | datastructure/src/commonMain/kotlin/com/lt/data_structure/basic_value/BooleanArrayList.kt:51-55 | succeeds exactly for `0 <= index < size` and returns element `index`; otherwise, including any negative index, raises IndexOutOfBounds |
| BooleanArrayLists.GetOrElse | datastructure/src/commonMain/kotlin/com/lt/data_structure/basic_value/BooleanArrayList.kt:60-70 | returns the default outside `[0, size)` and agrees with `get` wherever `get` succeeds |
| BooleanArrayLists.GetOrNull | datastructure/src/commonMain/kotlin/com/lt/data_structure/basic_value/BooleanArrayList.kt:75-79 | returns a value exactly when `get` would succeed, and that value is the element; otherwise returns null |
| BooleanArrayLists.IsEmpty | datastructure/src/commonMain/kotlin/com/lt/data_structure/basic_value/BooleanArrayList.kt:148 | true exactly when the list holds no elements |
| BooleanArrayLists.ScanForward | datastructure/src/commonMain/kotlin/com/lt/data_structure/basic_value/BooleanArrayList.kt:195-201 | the forward traversal from a start index finds the least later index that holds the value, or -1 exactly when the value does not occur from there on |
| BooleanArrayLists.IndexOf | datastructure/src/commonMain/kotlin/com/lt/data_structure/basic_value/BooleanArrayList.kt:153-159 | returns the least index that holds the value, or -1 exactly when the value is absent |
| BooleanArrayLists.ScanBackward | datastructure/src/commonMain/kotlin/com/lt/data_structure/basic_value/BooleanArrayList.kt:206-212 | the reversed traversal from an index finds the greatest earlier index that holds the value, or -1 exactly when none does |
| BooleanArrayLists.LastIndexOf | datastructure/src/commonMain/kotlin/com/lt/data_structure/basic_value/BooleanArrayList.kt:164-170 | returns the greatest index that holds the value, or -1 exactly when it is absent; it is never below `indexOf` |
| BooleanArrayLists.Contains | datastructure/src/commonMain/kotlin/com/lt/data_structure/basic_value/BooleanArrayList.kt:175 | `contains` through `indexOf >= 0` is exactly membership in the elements |
| BooleanArrayLists.Add | datastructure/src/commonMain/kotlin/com/lt/data_structure/basic_value/BooleanArrayList.kt:81-90 | appends the value at the end; a full buffer grows to 10 slots when it has none and otherwise doubles, and a buffer that is not full keeps its capacity |
| BooleanArrayLists.ShiftLeft | datastructure/src/commonMain/kotlin/com/lt/data_structure/basic_value/BooleanArrayList.kt:108-112 | after the shift loop, each slot from the removed index up to the last one holds its right neighbour, and every other slot is unchanged |
| BooleanArrayLists.RemoveAtIndex | datastructure/src/commonMain/kotlin/com/lt/data_structure/basic_value/BooleanArrayList.kt:105-114 | with both ends of the index checked: succeeds exactly for `0 <= index < size`, leaves the elements before and after `index` in order without it, and keeps the capacity |
| BooleanArrayLists.RemoveAtIndexAsWritten | datastructure/src/commonMain/kotlin/com/lt/data_structure/basic_value/BooleanArrayList.kt:105-114 | with only `index >= size` checked and the repeat count computed as a 32-bit `Int`: agrees with the checked version except where the shift loop runs zero times for a negative index. Index -1 on an empty list gives `size == -1`. An index below `Int.MIN_VALUE + size` wraps the count negative, so the last element is dropped and the buffer is kept. Every other negative index fails |
| BooleanArrayLists.RemoveAtMinIntDropsLast | datastructure/src/commonMain/kotlin/com/lt/data_structure/basic_value/BooleanArrayList.kt:105-113 | `removeAtIndex(Int.MIN_VALUE)` on a one-element list returns normally with the element gone, while the checked version raises IndexOutOfBounds |
| BooleanArrayLists.RemoveFirst | datastructure/src/commonMain/kotlin/com/lt/data_structure/basic_value/BooleanArrayList.kt:119 | fails on an empty list; otherwise drops the first element |
| BooleanArrayLists.RemoveLast | datastructure/src/commonMain/kotlin/com/lt/data_structure/basic_value/BooleanArrayList.kt:124 | corrected: fails on an empty list; otherwise drops the last element |
| BooleanArrayLists.RemoveLastAsWritten | datastructure/src/commonMain/kotlin/com/lt/data_structure/basic_value/BooleanArrayList.kt:124 | as written: agrees with the corrected version on non-empty lists, and on an empty list raises nothing and leaves `size == -1` |
| BooleanArrayLists.RemoveLastOnEmptyCorruptsSize | datastructure/src/commonMain/kotlin/com/lt/data_structure/basic_value/BooleanArrayList.kt:124 | on a fresh empty list, the written `removeLast()` returns a state with size -1, and the corrected one raises IndexOutOfBounds |
| BooleanArrayLists.RemoveElement | datastructure/src/commonMain/kotlin/com/lt/data_structure/basic_value/BooleanArrayList.kt:95-100 | deletes exactly the first occurrence of the value, or leaves the list unchanged when the value is absent; the capacity is kept |
| BooleanArrayLists.Set | datastructure/src/commonMain/kotlin/com/lt/data_structure/basic_value/BooleanArrayList.kt:129-135 | succeeds exactly for `0 <= index < size`, returns the previous element, and changes that one slot only |
| BooleanArrayLists.SetOrDiscard | datastructure/src/commonMain/kotlin/com/lt/data_structure/basic_value/BooleanArrayList.kt:140-143 | leaves the list unchanged outside `[0, size)`, and otherwise gives the list that `set` produces |
| BooleanArrayLists.Clear | datastructure/src/commonMain/kotlin/com/lt/data_structure/basic_value/BooleanArrayList.kt:299-301 | empties the list and keeps the buffer, so a following add into a non-empty buffer does not reallocate |
| BooleanArrayLists.SubList | datastructure/src/commonMain/kotlin/com/lt/data_structure/basic_value/BooleanArrayList.kt:247-251 | succeeds exactly for `0 <= from <= to <= size` with the elements `[from, to)` and capacity `to - from`; `to > size` raises IndexOutOfBounds |
| BooleanArrayLists.SubListWithSafe | datastructure/src/commonMain/kotlin/com/lt/data_structure/basic_value/BooleanArrayList.kt:256-257 | as written: succeeds exactly when `max(0, from) <= min(size, to)` with the elements of the clamped range; otherwise raises IllegalArgument |
| BooleanArrayLists.SubListClamped | datastructure/src/commonMain/kotlin/com/lt/data_structure/basic_value/BooleanArrayList.kt:253-257 | corrected: never fails; its length is `max(0, min(to, size) - max(0, from))` and its elements come from the clamped start; it agrees with the written one wherever that succeeds |
| BooleanArrayLists.SubListWithSafeCanFail | datastructure/src/commonMain/kotlin/com/lt/data_structure/basic_value/BooleanArrayList.kt:256-257 | `subListWithSafe(2, 5)` on a one-element list raises IllegalArgument, while the corrected version returns an empty list |
| BooleanArrayLists.AddAll | datastructure/src/commonMain/kotlin/com/lt/data_structure/basic_value/BooleanArrayList.kt:262-272 | appends the values in order; capacity never shrinks, and it is unchanged when everything fits |
| BooleanArrayLists.AddAllList | datastructure/src/commonMain/kotlin/com/lt/data_structure/basic_value/BooleanArrayList.kt:266-268 | appends a snapshot of the other list's elements, so adding a list to itself gives its elements twice |
| BooleanArrayLists.AddPresent | datastructure/src/commonMain/kotlin/com/lt/data_structure/basic_value/BooleanArrayList.kt:275-278 | appends the non-null values in order |
| BooleanArrayLists.AddAllNotNull | datastructure/src/commonMain/kotlin/com/lt/data_structure/basic_value/BooleanArrayList.kt:274-279 | a null collection leaves the list unchanged; otherwise only the non-null values are appended, in order |
| BooleanArrayLists.RemoveAll | datastructure/src/commonMain/kotlin/com/lt/data_structure/basic_value/BooleanArrayList.kt:284-294 | removes one first occurrence per value, in order; the remaining multiset is the old one minus the removed values, and the capacity is kept |
| BooleanArrayLists.RemoveAllList | datastructure/src/commonMain/kotlin/com/lt/data_structure/basic_value/BooleanArrayList.kt:288-290 | removes against a snapshot of the other list's elements |
| BooleanArrayLists.RemoveAllOfItselfEmpties | datastructure/src/commonMain/kotlin/com/lt/data_structure/basic_value/BooleanArrayList.kt:288-290 | because the argument is copied first, removing a list from itself leaves it empty |
| BooleanArrayLists.ToBooleanArray | datastructure/src/commonMain/kotlin/com/lt/data_structure/basic_value/BooleanArrayList.kt:306 | the exported array is exactly the elements, and a list rebuilt from it has the same elements |
| BooleanArrayLists.ArrayRoundTrip | datastructure/src/commonMain/kotlin/com/lt/data_structure/basic_value/BooleanArrayList.kt:28-33 | an array wrapped in a list, optionally copied once more, comes back unchanged from `toBooleanArray` |
| Growth.AddKeepsDoubling | datastructure/src/commonMain/kotlin/com/lt/data_structure/basic_value/BooleanArrayList.kt:85-90 | `add` keeps the capacity at zero or at ten times a power of two, and below twice the length once it is above ten |
| Growth.AppendsFromEmpty | datastructure/src/commonMain/kotlin/com/lt/data_structure/basic_value/BooleanArrayList.kt:81-90 | appends to a list with no buffer keep their order; the capacity is 10 doubled some number of times, at least the length, and below twice the length once it is above ten |
| DebugStrings.ParseJoin | datastructure/src/commonMain/kotlin/com/lt/data_structure/basic_value/BooleanArrayList.kt:311 | the comma-joined words of a non-empty list can be read back as that list |
| DebugStrings.ToString | datastructure/src/commonMain/kotlin/com/lt/data_structure/basic_value/BooleanArrayList.kt:310-312 | the text is bracketed and parses back to exactly the elements; an empty list renders as `[]` |
| DebugStrings.WorkedExample | datastructure/src/commonMain/kotlin/com/lt/data_structure/basic_value/BooleanArrayList.kt:310-312 | appending true, false, true renders `[true,false,true]`; removing index 1 renders `[true,true]`, after which `indexOf(false)` is -1 and `getOrElse(5, false)` is false; `removeFirst()` on an empty list fails |
| Iterators.IteratorOf | datastructure/src/commonMain/kotlin/com/lt/data_structure/basic_value/BooleanArrayList.kt:180 | a new iterator starts before the first element, and a traversal with it visits exactly the list's elements in order |
| Iterators.HasNext | datastructure/src/commonMain/kotlin/com/lt/data_structure/basic_value/BooleanArrayList.kt:319 | true exactly while the cursor is below the list's length; for a non-negative cursor, exactly when `next()` would succeed |
| Iterators.Next | datastructure/src/commonMain/kotlin/com/lt/data_structure/basic_value/BooleanArrayList.kt:320 | returns the element under the cursor when the cursor is in range and fails otherwise; either way the cursor advances |
| Iterators.Remove | datastructure/src/commonMain/kotlin/com/lt/data_structure/basic_value/BooleanArrayList.kt:321 | steps the cursor back, then deletes the element now under it; it fails without changing the list when the cursor was not in `[1, size]` |
| Iterators.RemoveAsWritten | datastructure/src/commonMain/kotlin/com/lt/data_structure/basic_value/BooleanArrayList.kt:321 | as written, with an `Int` cursor: agrees with the corrected `Remove` except where the written removal raises nothing. At cursor 0 on an empty list it keeps the buffer and leaves `size == -1`. At a cursor up to `Int.MIN_VALUE + size` it drops the last element. At `Int.MIN_VALUE` the cursor wraps to `Int.MAX_VALUE` and the removal fails |
| Iterators.RemoveBeforeNextOnEmptyCorruptsSize | datastructure/src/commonMain/kotlin/com/lt/data_structure/basic_value/BooleanArrayList.kt:321 | `remove()` on a fresh empty list's new iterator returns normally and leaves size -1 and cursor -1; the corrected `Remove` raises IndexOutOfBounds |
| Iterators.RemoveAfterNext | datastructure/src/commonMain/kotlin/com/lt/data_structure/basic_value/BooleanArrayList.kt:317-322 | `remove()` after `next()` deletes the element just returned and leaves the cursor where `next()` found it, so the next `next()` returns that element's old successor |
| Iterators.Traverse | datastructure/src/commonMain/kotlin/com/lt/data_structure/basic_value/BooleanArrayList.kt:317-322 | calling `next()` while `hasNext()` visits exactly the elements from the cursor onwards, in order |
| Iterators.RemoveMatching | datastructure/src/commonMain/kotlin/com/lt/data_structure/basic_value/BooleanArrayList.kt:317-322 | removing through the iterator every visited element equal to a value leaves the earlier part unchanged and the rest filtered in order |
| ArrayBacked.BooleanArrayList.Init | datastructure/src/commonMain/kotlin/com/lt/data_structure/basic_value/BooleanArrayList.kt:40-46 | the primary constructor allocates a new all-`false` buffer of `initSize` slots with size 0, the state of the value model's `New` |
| ArrayBacked.BooleanArrayList.Get | datastructure/src/commonMain/kotlin/com/lt/data_structure/basic_value/BooleanArrayList.kt:51-55 | the in-place `get` returns what the value model's `Get` returns |
| ArrayBacked.BooleanArrayList.Add | datastructure/src/commonMain/kotlin/com/lt/data_structure/basic_value/BooleanArrayList.kt:85-90 | copying into the grown buffer and storing in place gives the state of the value model's `Add`; the buffer is either the old one or a newly allocated one, never an array the caller holds |
| ArrayBacked.BooleanArrayList.RemoveAtIndex | datastructure/src/commonMain/kotlin/com/lt/data_structure/basic_value/BooleanArrayList.kt:105-114 | the in-place shift loop gives the state of the value model's `RemoveAtIndex` in the same buffer object, and a failed call changes nothing |
| ArrayBacked.BooleanArrayList.Set | datastructure/src/commonMain/kotlin/com/lt/data_structure/basic_value/BooleanArrayList.kt:129-135 | the in-place `set` returns the previous value and gives the state of the value model's `Set` |
| ArrayBacked.BooleanArrayList.IndexOf | datastructure/src/commonMain/kotlin/com/lt/data_structure/basic_value/BooleanArrayList.kt:153-159 | the forward scan over the buffer returns the value model's `IndexOf` |
| ArrayBacked.BooleanArrayList.LastIndexOf | datastructure/src/commonMain/kotlin/com/lt/data_structure/basic_value/BooleanArrayList.kt:164-170 | the backward scan over the buffer returns the value model's `LastIndexOf` |
| ArrayBacked.BooleanArrayList.Clear | datastructure/src/commonMain/kotlin/com/lt/data_structure/basic_value/BooleanArrayList.kt:299-301 | resetting the length gives the state of the value model's `Clear` and keeps the same buffer object |
| ArrayBacked.BooleanArrayList.ToBooleanArray | datastructure/src/commonMain/kotlin/com/lt/data_structure/basic_value/BooleanArrayList.kt:306 | the returned array is newly allocated and holds exactly the elements |

## Left out

- The traversal helpers `forEach`, `forEachIndexed`, `forEachReversedIndexed`, the `*WithBasic` variants and the `fun interface` callbacks are not modelled separately. They are inline lambdas with non-local returns. Their two loop shapes appear as `ScanForward` and `ScanBackward`, and as the scans of `ArrayBacked`.
- GetOrElse: the overload that takes a `() -> Boolean` default is modelled like the value overload. A pure model cannot observe that the default is evaluated lazily.
- The boxed `BooleanMutableIterator` and the unboxed `BasicBooleanMutableIterator` are one iterator type. Their bodies are identical, and the difference is only boxing cost on the JVM.
- `toMutableList`, `booleanArrayListOf` and the `RandomAccess` marker are left out. They are plumbing into the host collection library.
- Exception classes and messages become the two `Error` values.
- Add: capacities are unbounded naturals. The 32-bit `Int` overflow of `data.size * 2` on very large buffers is not modelled, and neither is a negative `initSize`, which the platform rejects when it allocates the array.
- SubList: the error kinds for a bad `from` follow the JVM `copyOfRange`, but without its 32-bit `Int` arithmetic. The JVM computes the new length `to - from` as an `Int`, which wraps when the two ends are more than 2^31 apart. So `subList(Int.MIN_VALUE, 1)` raises IllegalArgument, where the model says IndexOutOfBounds. With a positive `from` and a `to` near `Int.MIN_VALUE`, the wrapped length is close to 2^31. The JVM then either fails to allocate the copy or allocates it padded with `false`. The model treats all such inputs as failures. Other Kotlin targets may raise different exception types.
- SubListWithSafe: the clamped range has the same wrap. `subListWithSafe(Int.MAX_VALUE, Int.MIN_VALUE)` computes a length of 1 and then fails in the array copy with an index failure, not with the IllegalArgument the model states. A positive `from` with `to` near `Int.MIN_VALUE` behaves as described for `SubList`.
- The object layer `ArrayBacked` covers `get`, `set`, `add`, `removeAtIndex`, `indexOf`, `lastIndexOf`, `clear` and `toBooleanArray`. The other operations exist only in the value model.
- ArrayBacked.BooleanArrayList.RemoveAtIndex: rejects every negative index, as the corrected `RemoveAtIndex` does. The written code sets `size` to -1 for index -1 on an empty list; that path is modelled only in the value layer, by `RemoveAtIndexAsWritten`.
- Iterators.Next: the cursor is an unbounded integer here. `index++` wrapping from `Int.MAX_VALUE` to `Int.MIN_VALUE`, after 2^31 calls, is not modelled. `Iterators.RemoveAsWritten` does model the wrap of `--index`.
- Iterators.Remove: follows the corrected `RemoveAtIndex`, so at cursor 0 on an empty list it fails. The written `remove()` leaves `size == -1` there; `Iterators.RemoveAsWritten` models that path.
- Negative indices: the list checks only `index >= size`, so a negative index fails only when the platform's array access rejects it. The model treats that failure as IndexOutOfBounds, as the JVM does. The file is common code for other targets, and their array access on a negative index is not modelled.
- AddAllList: the value model cannot alias, so `addAll(this)` sees a snapshot by construction. The object layer has no `addAll`, so the in-place copy that protects the written code from aliasing is not exercised.
- Concurrent mutation is not modelled. The class is documented as not thread-safe.

## Findings

| source | as written | input that shows it | evidently intended | confidence | as-written member | corrected member |
|---|---|---|---|---|---|---|
| datastructure/src/commonMain/kotlin/com/lt/data_structure/basic_value/BooleanArrayList.kt:105-124 | `removeAtIndex` only rejects `index >= size`. `removeLast()` on an empty list calls `removeAtIndex(-1)`, whose shift loop runs `0 - (-1) - 1 = 0` times, and then `size--`. The iterator's `remove()` before any `next()` on an empty list takes the same path | `BooleanArrayList().removeLast()`, or `remove()` on the new iterator of an empty list, raises nothing and leaves `size == -1` | an empty list rejects `removeLast()` with IndexOutOfBounds, as `removeFirst()` does | high; not executed | BooleanArrayLists.RemoveLastAsWritten | BooleanArrayLists.RemoveLast |
| datastructure/src/commonMain/kotlin/com/lt/data_structure/basic_value/BooleanArrayList.kt:253-257 | both ends are clamped into `[0, size]`, but `copyOfRange` still throws when the clamped `from` exceeds the clamped `to` | `subListWithSafe(2, 5)` on a one-element list, or any `to < 0` | the documented "safe" slice returns nothing for the out-of-range part and never throws | medium; not executed | BooleanArrayLists.SubListWithSafe | BooleanArrayLists.SubListClamped |
| datastructure/src/commonMain/kotlin/com/lt/data_structure/basic_value/BooleanArrayList.kt:105-113 | the repeat count `size - index - 1` is a 32-bit `Int`. For an index below `Int.MIN_VALUE + size` it wraps negative, `repeat` runs zero times, and `size--` drops the last element. The iterator's `remove()` at a cursor just above `Int.MIN_VALUE` reaches the same path | `BooleanArrayList(booleanArrayOf(true)).removeAtIndex(Int.MIN_VALUE)` returns normally and leaves `size == 0` | every negative index raises IndexOutOfBounds | high; not executed | BooleanArrayLists.RemoveAtIndexAsWritten | BooleanArrayLists.RemoveAtIndex |

=== FILE: array_backed.dfy ===
/** The list as the mutable object it is: a `BooleanArray` buffer and a
    length, updated in place. Each method is proved to leave the object in
    the state the value model of the same operation computes, so the value
    model's contracts carry over to the object. */
module ArrayBacked {
  import opened Results
  import L = BooleanArrayLists

  class BooleanArrayList {
    var data: array<bool>
    var size: int

    ghost predicate Valid()
      reads this
    {
      0 <= size <= data.Length
    }

    /** The state of the object as a value of the model. */
    function Model(): L.BooleanArrayList
      reads this, data
    {
      L.BooleanArrayList(data[..], size)
    }

    /** The primary constructor with an initial capacity. */
    constructor Init(initSize: nat)
      ensures Valid() && Model() == L.New(initSize)
      ensures fresh(data)
    {
      data := new bool[initSize](_ => false);
      size := 0;
    }

    /** `get(index)`. */
    method Get(index: int) returns (r: Result<bool>)
      requires Valid()
      ensures r == L.Get(Model(), index)
    {
      if index >= size {
        return Err(IndexOutOfBounds);
      }
      if index < 0 {
        return Err(IndexOutOfBounds);
      }
      return Ok(data[index]);
    }

    /** `add(element)`: copies into a buffer of the grown capacity when the
        current one is full, then stores. */
    method Add(e: bool)
      requires Valid()
      modifies this, data
      ensures Valid() && Model() == L.Add(old(Model()), e)
      ensures data == old(data) || fresh(data)
    {
      if size == data.Length {
        var grown := new bool[L.GrownCapacity(data.Length)](_ => false);
        var i := 0;
        while i < data.Length
          modifies grown
          invariant 0 <= i <= data.Length
          invariant forall k :: 0 <= k < i ==> grown[k] == data[k]
          invariant forall k :: data.Length <= k < grown.Length ==> !grown[k]
        {
          grown[i] := data[i];
          i := i + 1;
        }
        assert grown[..] == L.CopyOf(data[..], grown.Length);
        data := grown;
      }
      data[size] := e;
      size := size + 1;
    }

    /** `removeAtIndex(index)`, with the negative index rejected before the
        shift loop runs. */
    method RemoveAtIndex(index: int) returns (r: Result<()>)
      requires Valid()
      modifies this, data
      ensures Valid() && data == old(data)
      ensures r.Ok? <==> L.RemoveAtIndex(old(Model()), index).Ok?
      ensures r.Ok? ==> Model() == L.RemoveAtIndex(old(Model()), index).value
      ensures r.Err? ==> Model() == old(Model())
    {
      if index >= size || index < 0 {
        return Err(IndexOutOfBounds);
      }
      ghost var d0 := data[..];
      var it := 0;
      while it < size - index - 1
        modifies data
        invariant 0 <= it <= size - index - 1
        invariant data[..] == L.ShiftLeft(d0, index, index + it)
      {
        data[it + index] := data[it + index + 1];
        it := it + 1;
      }
      size := size - 1;
      return Ok(());
    }

    /** `set(index, element)`: the previous value. */
    method Set(index: int, e: bool) returns (r: Result<bool>)
      requires Valid()
      modifies data
      ensures Valid()
      ensures r.Ok? <==> L.Set(old(Model()), index, e).Ok?
      ensures r.Ok? ==> r.value == L.Set(old(Model()), index, e).value.0
      ensures r.Ok? ==> Model() == L.Set(old(Model()), index, e).value.1
      ensures r.Err? ==> Model() == old(Model())
    {
      if index >= size {
        return Err(IndexOutOfBounds);
      }
      var oldElement := Get(index);
      if oldElement.Err? {
        return oldElement;
      }
      data[index] := e;
      return oldElement;
    }

    /** `indexOf(element)`: a forward scan. */
    method IndexOf(e: bool) returns (r: int)
      requires Valid()
      ensures r == L.IndexOf(Model(), e)
    {
      var index := 0;
      while index < size
        invariant 0 <= index <= size
        invariant L.IndexOf(Model(), e) == L.ScanForward(Model(), e, index)
      {
        if e == data[index] {
          return index;
        }
        index := index + 1;
      }
      return -1;
    }

    /** `lastIndexOf(element)`: a backward scan. */
    method LastIndexOf(e: bool) returns (r: int)
      requires Valid()
      ensures r == L.LastIndexOf(Model(), e)
    {
      var index := size - 1;
      while index >= 0
        invariant -1 <= index < size
        invariant L.LastIndexOf(Model(), e) == L.ScanBackward(Model(), e, index)
      {
        if e == data[index] {
          return index;
        }
        index := index - 1;
      }
      return -1;
    }

    /** `clear()`. */
    method Clear()
      requires Valid()
      modifies this
      ensures Valid() && Model() == L.Clear(old(Model()))
      ensures data == old(data)
    {
      size := 0;
    }

    /** `toBooleanArray()`: a fresh array of the valid elements. */
    method ToBooleanArray() returns (a: array<bool>)
      requires Valid()
      ensures fresh(a)
      ensures a[..] == L.Elements(Model())
    {
      a := new bool[size](_ => false);
      var i := 0;
      while i < size
        invariant 0 <= i <= size
        invariant forall k :: 0 <= k < i ==> a[k] == data[k]
      {
        a[i] := data[i];
        i := i + 1;
      }
    }
  }
}

=== FILE: boolean_array_list.dfy ===
/** A growable array of booleans: a backing buffer `data` whose length is the
    capacity, and a logical length `size`. Every mutating operation of the
    list is modelled as a function from the state before the call to the
    state after it, or to the exception the call raises. */
module BooleanArrayLists {
  import opened Results
  import opened Sequences

  datatype BooleanArrayList = BooleanArrayList(data: seq<bool>, size: int)

  /** The representation invariant: the logical length lies inside the buffer. */
  predicate Valid(l: BooleanArrayList) {
    0 <= l.size <= |l.data|
  }

  /** The physical size of the backing buffer. */
  function Capacity(l: BooleanArrayList): nat {
    |l.data|
  }

  /** The abstract contents: the valid prefix of the buffer. Slots past
      `size` are stale and never observed through the operations below. */
  function Elements(l: BooleanArrayList): seq<bool>
    requires Valid(l)
  {
    l.data[..l.size]
  }

  /** The capacity `add` allocates for an empty buffer. */
  const InitialGrowth: nat := 10

  /** The range of Kotlin's 32-bit `Int`. */
  const IntMin: int := -0x8000_0000
  const IntMax: int := 0x7FFF_FFFF

  predicate IsInt(x: int) {
    IntMin <= x <= IntMax
  }

  /** `Int` arithmetic: the two's-complement wrap of an exact result. It
      agrees with the exact value modulo 2^32, leaves values in range alone,
      and moves a value up to 2^32 above the range down by 2^32. */
  function WrapInt(x: int): (r: int)
    ensures IsInt(r)
    ensures (x - r) % 0x1_0000_0000 == 0
    ensures IsInt(x) ==> r == x
    ensures IntMax < x <= IntMax + 0x1_0000_0000 ==> r == x - 0x1_0000_0000
  {
    (x - IntMin) % 0x1_0000_0000 + IntMin
  }

  // ---------------------------------------------------------------------
  // Buffer primitives of the platform
  // ---------------------------------------------------------------------

  /** `copyOf(n)`: the first `n` slots of `d`, padded with `false`. */
  function CopyOf(d: seq<bool>, n: nat): (r: seq<bool>)
    ensures |r| == n
    ensures forall i :: 0 <= i < n && i < |d| ==> r[i] == d[i]
    ensures forall i :: |d| <= i < n ==> !r[i]
  {
    if n <= |d| then d[..n] else d + seq(n - |d|, _ => false)
  }

  /** `copyOfRange(from, to)`: fails when `to` exceeds the buffer, when
      `from > to`, or when `from` is negative. */
  function CopyOfRange(d: seq<bool>, from: int, to: int): (r: Result<seq<bool>>)
    ensures r.Ok? <==> 0 <= from <= to <= |d|
    ensures r.Ok? ==> r.value == d[from..to]
    ensures 0 <= to <= |d| && from > to ==> r == Err(IllegalArgument)
  {
    if to > |d| then Err(IndexOutOfBounds)
    else if from > to then Err(IllegalArgument)
    else if from < 0 then Err(IndexOutOfBounds)
    else Ok(d[from..to])
  }

  // ---------------------------------------------------------------------
  // Construction
  // ---------------------------------------------------------------------

  /** `BooleanArrayList(initSize)`: an empty list over a buffer of exactly
      `initSize` slots. */
  function New(initSize: nat): (r: BooleanArrayList)
    ensures Valid(r) && Elements(r) == [] && Capacity(r) == initSize
  {
    BooleanArrayList(seq(initSize, _ => false), 0)
  }

  /** `BooleanArrayList(booleanArray)`: copies the array; size and capacity
      both equal its length. */
  function FromArray(a: seq<bool>): (r: BooleanArrayList)
    ensures Valid(r) && Elements(r) == a && Capacity(r) == |a|
  {
    var d := CopyOf(a, |a|);
    BooleanArrayList(d, |d|)
  }

  /** `BooleanArrayList(booleanArrayList)`: copies only the valid elements of
      `other`, dropping its spare capacity. */
  function FromList(other: BooleanArrayList): (r: BooleanArrayList)
    requires Valid(other)
    ensures Valid(r) && Elements(r) == Elements(other)
    ensures Capacity(r) == other.size
  {
    FromArray(CopyOf(other.data, other.size))
  }

  /** `BooleanArrayList(collection)`: reserves `|xs|` slots, then adds each
      value in order; no growth happens on the way. */
  function FromCollection(xs: seq<bool>): (r: BooleanArrayList)
    ensures Valid(r) && Elements(r) == xs && Capacity(r) == |xs|
  {
    AddAll(New(|xs|), xs)
  }

  // ---------------------------------------------------------------------
  // Access
  // ---------------------------------------------------------------------

  /** `get(index)`: the explicit check rejects `index >= size`; a negative
      index is rejected by the buffer access itself. */
  function Get(l: BooleanArrayList, index: int): (r: Result<bool>)
    requires Valid(l)
    ensures r.Ok? <==> 0 <= index < l.size
    ensures r.Ok? ==> r.value == Elements(l)[index]
    ensures r.Err? ==> r.error == IndexOutOfBounds
  {
    if index >= l.size then Err(IndexOutOfBounds)
    else if index < 0 then Err(IndexOutOfBounds)
    else Ok(l.data[index])
  }

  /** `getOrElse(index, defaultValue)`: the fallback outside `[0, size)`,
      otherwise whatever `get` returns. The lazily evaluated overload
      behaves the same in a pure model. */
  function GetOrElse(l: BooleanArrayList, index: int, defaultValue: bool): (r: bool)
    requires Valid(l)
    ensures Get(l, index).Ok? ==> r == Get(l, index).value
    ensures !(0 <= index < l.size) ==> r == defaultValue
  {
    if !(0 <= index < l.size) then defaultValue else Get(l, index).value
  }

  /** `getOrNull(index)`: `null` outside `[0, size)`, otherwise `get`. */
  function GetOrNull(l: BooleanArrayList, index: int): (r: Option<bool>)
    requires Valid(l)
    ensures r.Some? <==> Get(l, index).Ok?
    ensures r.Some? ==> r.value == Elements(l)[index]
  {
    if !(0 <= index < l.size) then None else Some(Get(l, index).value)
  }

  /** `isEmpty()`. */
  function IsEmpty(l: BooleanArrayList): (r: bool)
    requires Valid(l)
    ensures r <==> Elements(l) == []
  {
    l.size == 0
  }

  // ---------------------------------------------------------------------
  // Search
  // ---------------------------------------------------------------------

  /** The forward scan of `indexOf`, from `index` upwards. */
  function ScanForward(l: BooleanArrayList, e: bool, index: nat): (r: int)
    requires Valid(l) && index <= l.size
    ensures r == -1 || index <= r < l.size
    ensures r == -1 <==> e !in Elements(l)[index..]
    ensures r >= 0 ==> Elements(l)[r] == e
    ensures r >= 0 ==> forall j :: index <= j < r ==> Elements(l)[j] != e
    decreases l.size - index
  {
    if index == l.size then -1
    else if e == l.data[index] then index
    else
      assert Elements(l)[index..] == [Elements(l)[index]] + Elements(l)[index + 1..];
      ScanForward(l, e, index + 1)
  }

  /** The backward scan of `lastIndexOf`, from `index` downwards. */
  function ScanBackward(l: BooleanArrayList, e: bool, index: int): (r: int)
    requires Valid(l) && -1 <= index < l.size
    ensures -1 <= r <= index
    ensures r == -1 <==> e !in Elements(l)[..index + 1]
    ensures r >= 0 ==> Elements(l)[r] == e
    ensures r >= 0 ==> forall j :: r < j <= index ==> Elements(l)[j] != e
    decreases index + 1
  {
    if index < 0 then -1
    else if e == l.data[index] then index
    else
      assert Elements(l)[..index + 1] == Elements(l)[..index] + [Elements(l)[index]];
      ScanBackward(l, e, index - 1)
  }

  /** `indexOf(element)`: the least index holding `e`, or -1. */
  function IndexOf(l: BooleanArrayList, e: bool): (r: int)
    requires Valid(l)
    ensures r == -1 <==> e !in Elements(l)
    ensures r != -1 ==> 0 <= r < l.size && Elements(l)[r] == e
    ensures r != -1 ==> forall j :: 0 <= j < r ==> Elements(l)[j] != e
  {
    assert Elements(l)[0..] == Elements(l);
    ScanForward(l, e, 0)
  }

  /** `lastIndexOf(element)`: the greatest index holding `e`, or -1. */
  function LastIndexOf(l: BooleanArrayList, e: bool): (r: int)
    requires Valid(l)
    ensures r == -1 <==> e !in Elements(l)
    ensures r != -1 ==> 0 <= r < l.size && Elements(l)[r] == e
    ensures r != -1 ==> forall j :: r < j < l.size ==> Elements(l)[j] != e
    ensures IndexOf(l, e) <= r
  {
    assert Elements(l)[..l.size] == Elements(l);
    ScanBackward(l, e, l.size - 1)
  }

  /** `contains(element)`, defined through `indexOf`. */
  function Contains(l: BooleanArrayList, e: bool): (r: bool)
    requires Valid(l)
    ensures r <==> e in Elements(l)
  {
    IndexOf(l, e) >= 0
  }

  // ---------------------------------------------------------------------
  // Mutation
  // ---------------------------------------------------------------------

  /** The capacity `add` grows a full buffer to. */
  function GrownCapacity(capacity: nat): nat {
    if capacity == 0 then InitialGrowth else capacity * 2
  }

  /** `add(element)`: appends; a full buffer is first reallocated to 10
      slots when empty and to twice its capacity otherwise. */
  function Add(l: BooleanArrayList, e: bool): (r: BooleanArrayList)
    requires Valid(l)
    ensures Valid(r) && Elements(r) == Elements(l) + [e]
    ensures l.size < Capacity(l) ==> Capacity(r) == Capacity(l)
    ensures l.size == Capacity(l) == 0 ==> Capacity(r) == InitialGrowth
    ensures l.size == Capacity(l) > 0 ==> Capacity(r) == 2 * Capacity(l)
  {
    var d := if l.size == |l.data| then CopyOf(l.data, GrownCapacity(|l.data|)) else l.data;
    assert d[..l.size] == l.data[..l.size];
    BooleanArrayList(d[l.size := e], l.size + 1)
  }

  /** The shift loop of `removeAtIndex`: for `j` from the removed index up
      to `last - 1`, `data[j] = data[j + 1]` (the Kotlin loop counts
      `it = j - index` from 0 to `size - index - 2`). */
  function ShiftLeft(d: seq<bool>, j: nat, last: nat): (r: seq<bool>)
    requires j <= last < |d|
    ensures |r| == |d|
    ensures forall k {:trigger r[k]} :: 0 <= k < |r| ==> r[k] == (if j <= k < last then d[k + 1] else d[k])
    decreases last - j
  {
    if j == last then d
    else ShiftLeft(d[j := d[j + 1]], j + 1, last)
  }

  /** `removeAtIndex(index)` with both ends of the index range checked: the
      elements after `index` move one slot left and the length drops by one;
      the buffer keeps its capacity. */
  function RemoveAtIndex(l: BooleanArrayList, index: int): (r: Result<BooleanArrayList>)
    requires Valid(l)
    ensures r.Ok? <==> 0 <= index < l.size
    ensures r.Err? ==> r.error == IndexOutOfBounds
    ensures r.Ok? ==> Valid(r.value) && Capacity(r.value) == Capacity(l)
    ensures r.Ok? ==> Elements(r.value) == Elements(l)[..index] + Elements(l)[index + 1..]
  {
    if index >= l.size || index < 0 then Err(IndexOutOfBounds)
    else
      var r := BooleanArrayList(ShiftLeft(l.data, index, l.size - 1), l.size - 1);
      assert forall k :: 0 <= k < l.size - 1 ==>
        Elements(r)[k] == (Elements(l)[..index] + Elements(l)[index + 1..])[k];
      Ok(r)
  }

  /** `removeAtIndex(index)` as written: only `index >= size` is checked, and
      the repeat count `size - index - 1` is an `Int`. A negative index fails
      once the shift loop touches the buffer, unless the loop runs zero
      times. With `size == 0` and `index == -1` the length becomes -1. With
      an index within `size` of `Int.MIN_VALUE` the count wraps negative and
      the last element is dropped, whatever the index. */
  function RemoveAtIndexAsWritten(l: BooleanArrayList, index: int): (r: Result<BooleanArrayList>)
    requires Valid(l) && l.size <= IntMax && IsInt(index)
    ensures !(l.size == 0 && index == -1) && IntMin + l.size <= index ==> r == RemoveAtIndex(l, index)
    ensures (r.Ok? && !Valid(r.value)) <==> (l.size == 0 && index == -1)
    ensures r.Ok? && !Valid(r.value) ==> r.value == BooleanArrayList(l.data, -1)
    ensures index < IntMin + l.size ==>
              && r.Ok? && Valid(r.value) && r.value.data == l.data
              && Elements(r.value) == Elements(l)[..l.size - 1]
  {
    var count := WrapInt(l.size - index - 1);
    if index >= l.size then Err(IndexOutOfBounds)
    else if count <= 0 then Ok(BooleanArrayList(l.data, l.size - 1))
    else if index < 0 then Err(IndexOutOfBounds)
    else Ok(BooleanArrayList(ShiftLeft(l.data, index, l.size - 1), l.size - 1))
  }

  /** `removeFirst()`: fails on an empty list. */
  function RemoveFirst(l: BooleanArrayList): (r: Result<BooleanArrayList>)
    requires Valid(l)
    ensures l.size == 0 ==> r == Err(IndexOutOfBounds)
    ensures l.size > 0 ==> r.Ok? && Valid(r.value) && Elements(r.value) == Elements(l)[1..]
  {
    RemoveAtIndex(l, 0)
  }

  /** `removeLast()` over the corrected `removeAtIndex`: fails on an empty
      list instead of corrupting the length. */
  function RemoveLast(l: BooleanArrayList): (r: Result<BooleanArrayList>)
    requires Valid(l)
    ensures l.size == 0 ==> r == Err(IndexOutOfBounds)
    ensures l.size > 0 ==> r.Ok? && Valid(r.value) && Elements(r.value) == Elements(l)[..l.size - 1]
  {
    RemoveAtIndex(l, l.size - 1)
  }

  /** `removeLast()` as written, over `RemoveAtIndexAsWritten`. */
  function RemoveLastAsWritten(l: BooleanArrayList): (r: Result<BooleanArrayList>)
    requires Valid(l) && l.size <= IntMax
    ensures l.size > 0 ==> r == RemoveLast(l)
    ensures l.size == 0 ==> r.Ok? && r.value.size == -1 && !Valid(r.value)
  {
    RemoveAtIndexAsWritten(l, l.size - 1)
  }

  /** The exhibit: `removeLast()` on a fresh empty list raises nothing and
      leaves a length of -1 behind. */
  lemma RemoveLastOnEmptyCorruptsSize()
    ensures RemoveLastAsWritten(New(0)) == Ok(BooleanArrayList([], -1))
    ensures RemoveLast(New(0)) == Err(IndexOutOfBounds)
  {
  }

  /** The exhibit: `removeAtIndex(Int.MIN_VALUE)` on a one-element list
      raises nothing and drops the element. */
  lemma RemoveAtMinIntDropsLast()
    ensures RemoveAtIndexAsWritten(FromArray([true]), IntMin) == Ok(BooleanArrayList([true], 0))
    ensures RemoveAtIndex(FromArray([true]), IntMin) == Err(IndexOutOfBounds)
  {
    assert FromArray([true]).data == [true] by {
      assert FromArray([true]).data[..1] == [true];
    }
  }

  /** `removeElement(element)`: removes the first occurrence found by
      `indexOf`; a no-op when `e` is absent. */
  function RemoveElement(l: BooleanArrayList, e: bool): (r: BooleanArrayList)
    requires Valid(l)
    ensures Valid(r) && Capacity(r) == Capacity(l)
    ensures Elements(r) == DeleteFirst(Elements(l), e)
    ensures e !in Elements(l) ==> r == l
  {
    var i := IndexOf(l, e);
    if i >= 0 then
      DeleteFirstAt(Elements(l), e, i);
      RemoveAtIndex(l, i).value
    else l
  }

  /** `set(index, element)`: returns the previous value and overwrites the
      slot; fails outside `[0, size)`. */
  function Set(l: BooleanArrayList, index: int, e: bool): (r: Result<(bool, BooleanArrayList)>)
    requires Valid(l)
    ensures r.Ok? <==> 0 <= index < l.size
    ensures r.Err? ==> r.error == IndexOutOfBounds
    ensures r.Ok? ==> r.value.0 == Elements(l)[index]
    ensures r.Ok? ==> Valid(r.value.1) && Capacity(r.value.1) == Capacity(l)
    ensures r.Ok? ==> Elements(r.value.1) == Elements(l)[index := e]
  {
    if index >= l.size then Err(IndexOutOfBounds)
    else
      match Get(l, index)
      case Err(err) => Err(err)
      case Ok(oldElement) =>
        var r := BooleanArrayList(l.data[index := e], l.size);
        assert Elements(r) == Elements(l)[index := e];
        Ok((oldElement, r))
  }

  /** `setOrDiscard(index, element)`: the list unchanged outside
      `[0, size)`, otherwise the list `set` produces. */
  function SetOrDiscard(l: BooleanArrayList, index: int, e: bool): (r: BooleanArrayList)
    requires Valid(l)
    ensures Valid(r) && Capacity(r) == Capacity(l)
    ensures !(0 <= index < l.size) ==> r == l
    ensures Set(l, index, e).Ok? ==> r == Set(l, index, e).value.1
  {
    if index >= l.size || index < 0 then l else Set(l, index, e).value.1
  }

  /** `clear()`: forgets the contents and keeps the buffer, so the next
      `add` does not reallocate a non-empty buffer. */
  function Clear(l: BooleanArrayList): (r: BooleanArrayList)
    requires Valid(l)
    ensures Valid(r) && Elements(r) == [] && IsEmpty(r)
    ensures Capacity(r) == Capacity(l)
    ensures forall e :: Capacity(l) > 0 ==> Capacity(Add(r, e)) == Capacity(l)
  {
    BooleanArrayList(l.data, 0)
  }

  // ---------------------------------------------------------------------
  // Slicing
  // ---------------------------------------------------------------------

  /** `subList(from, to)`: checks only `to > size` itself; the range copy
      rejects a negative `from` and `from > to`. */
  function SubList(l: BooleanArrayList, from: int, to: int): (r: Result<BooleanArrayList>)
    requires Valid(l)
    ensures r.Ok? <==> 0 <= from <= to <= l.size
    ensures to > l.size ==> r == Err(IndexOutOfBounds)
    ensures r.Ok? ==> Valid(r.value) && Elements(r.value) == Elements(l)[from..to]
    ensures r.Ok? ==> Capacity(r.value) == to - from
  {
    if to > l.size then Err(IndexOutOfBounds)
    else
      var slice :- CopyOfRange(l.data, from, to);
      assert slice == Elements(l)[from..to] by {
        assert forall i :: 0 <= i < to - from ==> slice[i] == l.data[from + i];
      }
      Ok(FromArray(slice))
  }

  function Max(a: int, b: int): int { if a < b then b else a }
  function Min(a: int, b: int): int { if a < b then a else b }

  /** `subListWithSafe(from, to)` as written: both ends are clamped into
      `[0, size]`, but the range copy still fails when the clamped `from`
      exceeds the clamped `to`. */
  function SubListWithSafe(l: BooleanArrayList, from: int, to: int): (r: Result<BooleanArrayList>)
    requires Valid(l)
    ensures r.Ok? <==> Max(0, from) <= Min(l.size, to)
    ensures r.Err? ==> r.error == IllegalArgument
    ensures r.Ok? ==> Valid(r.value) && Elements(r.value) == Elements(l)[Max(0, from)..Min(l.size, to)]
  {
    var slice :- CopyOfRange(l.data, Max(0, from), Min(l.size, to));
    Ok(FromArray(slice))
  }

  /** The clamped slice as documented: never fails, and yields nothing for
      an empty clamped range. */
  function SubListClamped(l: BooleanArrayList, from: int, to: int): (r: BooleanArrayList)
    requires Valid(l)
    ensures Valid(r)
    ensures |Elements(r)| == Max(0, Min(to, l.size) - Max(0, from))
    ensures forall i :: 0 <= i < |Elements(r)| ==> Elements(r)[i] == Elements(l)[Max(0, from) + i]
    ensures SubListWithSafe(l, from, to).Ok? ==> Elements(r) == Elements(SubListWithSafe(l, from, to).value)
  {
    var f := Max(0, from);
    var t := Min(l.size, to);
    if f > t then FromArray([]) else FromArray(l.data[f..t])
  }

  /** The exhibit: on a one-element list, the clamped range `[2, 1)` makes
      `subListWithSafe(2, 5)` fail. */
  lemma SubListWithSafeCanFail()
    ensures SubListWithSafe(FromArray([true]), 2, 5) == Err(IllegalArgument)
    ensures Elements(SubListClamped(FromArray([true]), 2, 5)) == []
  {
  }

  // ---------------------------------------------------------------------
  // Bulk operations
  // ---------------------------------------------------------------------

  /** `addAll(collection)` / `addAll(booleanArray)`: `add` for each value in
      order, each step under the growth policy. */
  function AddAll(l: BooleanArrayList, xs: seq<bool>): (r: BooleanArrayList)
    requires Valid(l)
    ensures Valid(r) && Elements(r) == Elements(l) + xs
    ensures Capacity(l) <= Capacity(r)
    ensures l.size + |xs| <= Capacity(l) ==> Capacity(r) == Capacity(l)
    decreases |xs|
  {
    if xs == [] then l
    else
      assert xs == [xs[0]] + xs[1..];
      AddAll(Add(l, xs[0]), xs[1..])
  }

  /** `addAll(booleanArrayList)`: adds a copy of the first `size` elements
      of `other`, so adding a list to itself doubles its contents. */
  function AddAllList(l: BooleanArrayList, other: BooleanArrayList): (r: BooleanArrayList)
    requires Valid(l) && Valid(other)
    ensures Valid(r) && Elements(r) == Elements(l) + Elements(other)
  {
    AddAll(l, CopyOf(other.data, other.size))
  }

  /** The present values of `xs`, added in order. */
  function AddPresent(l: BooleanArrayList, xs: seq<Option<bool>>): (r: BooleanArrayList)
    requires Valid(l)
    ensures Valid(r) && Elements(r) == Elements(l) + Present(xs)
    decreases |xs|
  {
    if xs == [] then l
    else
      assert xs == [xs[0]] + xs[1..];
      match xs[0]
      case None => AddPresent(l, xs[1..])
      case Some(b) => AddPresent(Add(l, b), xs[1..])
  }

  /** `addAllNotNull(elements)`: a null collection is a no-op, null values
      in it are skipped. */
  function AddAllNotNull(l: BooleanArrayList, xs: Option<seq<Option<bool>>>): (r: BooleanArrayList)
    requires Valid(l)
    ensures Valid(r)
    ensures xs.None? ==> r == l
    ensures xs.Some? ==> Elements(r) == Elements(l) + Present(xs.value)
  {
    match xs
    case None => l
    case Some(ys) => AddPresent(l, ys)
  }

  /** `removeAll(collection)` / `removeAll(booleanArray)`: `removeElement`
      for each value in order. */
  function RemoveAll(l: BooleanArrayList, xs: seq<bool>): (r: BooleanArrayList)
    requires Valid(l)
    ensures Valid(r) && Capacity(r) == Capacity(l)
    ensures Elements(r) == DeleteEach(Elements(l), xs)
    ensures multiset(Elements(r)) == multiset(Elements(l)) - multiset(xs)
    decreases |xs|
  {
    if xs == [] then l
    else RemoveAll(RemoveElement(l, xs[0]), xs[1..])
  }

  /** `removeAll(booleanArrayList)`: removes against a copy of the first
      `size` elements of `other`. */
  function RemoveAllList(l: BooleanArrayList, other: BooleanArrayList): (r: BooleanArrayList)
    requires Valid(l) && Valid(other)
    ensures Valid(r) && Elements(r) == DeleteEach(Elements(l), Elements(other))
  {
    RemoveAll(l, CopyOf(other.data, other.size))
  }

  /** Removing a list's own snapshot from it empties it. */
  lemma RemoveAllOfItselfEmpties(l: BooleanArrayList)
    requires Valid(l)
    ensures Elements(RemoveAllList(l, l)) == []
  {
  }

  // ---------------------------------------------------------------------
  // Conversion
  // ---------------------------------------------------------------------

  /** `toBooleanArray()`: a fresh array of exactly the valid elements;
      rebuilding a list from it gives the same elements. */
  function ToBooleanArray(l: BooleanArrayList): (r: seq<bool>)
    requires Valid(l)
    ensures r == Elements(l)
    ensures Elements(FromArray(r)) == Elements(l)
  {
    CopyOf(l.data, l.size)
  }

  /** The other direction of the round trip: an array survives being
      wrapped in a list and exported again. */
  lemma ArrayRoundTrip(a: seq<bool>)
    ensures ToBooleanArray(FromArray(a)) == a
    ensures ToBooleanArray(FromList(FromArray(a))) == a
  {
  }
}

=== FILE: debug_string.dfy ===
/** `toString()`: `"["`, the elements joined by `","`, then `"]"`, each
    element written as Kotlin writes a Boolean. A parser for that text is
    the partner the rendering is proved against. */
module DebugStrings {
  import opened Results
  import opened BooleanArrayLists

  function Word(b: bool): string {
    if b then "true" else "false"
  }

  /** `joinToString(",")` over the rendered values. */
  function Join(xs: seq<bool>): string {
    if |xs| == 0 then ""
    else if |xs| == 1 then Word(xs[0])
    else Word(xs[0]) + "," + Join(xs[1..])
  }

  /** Reads one or more words separated by commas, and nothing else. */
  function ParseItems(t: string): Option<seq<bool>>
    decreases |t|
  {
    var n := if |t| >= 4 && t[..4] == "true" then 4
             else if |t| >= 5 && t[..5] == "false" then 5
             else 0;
    if n == 0 then None
    else
      var rest := t[n..];
      if rest == [] then Some([n == 4])
      else if rest[0] != ',' then None
      else
        match ParseItems(rest[1..])
        case None => None
        case Some(bs) => Some([n == 4] + bs)
  }

  /** Reads a bracketed, comma-separated list of booleans. */
  function Parse(s: string): Option<seq<bool>> {
    if |s| < 2 || s[0] != '[' || s[|s| - 1] != ']' then None
    else if |s| == 2 then Some([])
    else ParseItems(s[1..|s| - 1])
  }

  lemma {:induction false} ParseJoin(xs: seq<bool>)
    requires xs != []
    ensures ParseItems(Join(xs)) == Some(xs)
    decreases |xs|
  {
    var w := Word(xs[0]);
    var tail := if |xs| == 1 then "" else "," + Join(xs[1..]);
    var t := w + tail;
    assert Join(xs) == t;
    assert t[..|w|] == w;
    assert t[|w|..] == tail;
    if !xs[0] {
      assert t[..4] != "true" by { assert t[..4][3] == 's'; }
    }
    if |xs| == 1 {
      assert xs == [xs[0]];
      assert ParseItems(t) == Some([xs[0]]);
    } else {
      assert tail[1..] == Join(xs[1..]);
      ParseJoin(xs[1..]);
      assert xs == [xs[0]] + xs[1..];
      assert ParseItems(t) == Some([xs[0]] + xs[1..]);
    }
  }

  lemma ParseRendered(xs: seq<bool>)
    ensures Parse("[" + Join(xs) + "]") == Some(xs)
    ensures xs != [] ==> |Join(xs)| > 0
  {
    var r := "[" + Join(xs) + "]";
    assert r[1..|r| - 1] == Join(xs);
    if xs != [] {
      ParseJoin(xs);
      assert Join(xs)[0] == Word(xs[0])[0];
    }
  }

  /** `toString()`: reading the rendered text back yields exactly the
      elements, so the rendering loses nothing. */
  function ToString(l: BooleanArrayList): (r: string)
    requires Valid(l)
    ensures Parse(r) == Some(Elements(l))
    ensures |r| >= 2 && r[0] == '[' && r[|r| - 1] == ']'
    ensures IsEmpty(l) <==> r == "[]"
  {
    var xs := ToBooleanArray(l);
    ParseRendered(xs);
    "[" + Join(xs) + "]"
  }

  /** The two renderings `WorkedExample` needs. Kept apart from it because
      the string equalities are costly to prove alongside its other facts. */
  lemma RenderedExamples()
    ensures "[" + Join([true, false, true]) + "]" == "[true,false,true]"
    ensures "[" + Join([true, true]) + "]" == "[true,true]"
  {
  }

  /** Three appends, a removal in the middle, and the lookups around it. */
  lemma WorkedExample()
    ensures var l := Add(Add(Add(New(0), true), false), true);
            && ToString(l) == "[true,false,true]"
            && RemoveAtIndex(l, 1).Ok?
            && ToString(RemoveAtIndex(l, 1).value) == "[true,true]"
            && IndexOf(RemoveAtIndex(l, 1).value, false) == -1
            && GetOrElse(RemoveAtIndex(l, 1).value, 5, false) == false
            && RemoveFirst(New(0)) == Err(IndexOutOfBounds)
  {
    var l := Add(Add(Add(New(0), true), false), true);
    assert ToBooleanArray(l) == [true, false, true];
    var m := RemoveAtIndex(l, 1).value;
    assert ToBooleanArray(m) == [true, true];
    RenderedExamples();
  }
}

=== FILE: growth.dfy ===
/** The amortised growth policy of `add`: a list built by appends from an
    empty buffer only ever holds capacities 10, 20, 40, ..., and the
    capacity stays below twice the length once it has grown past 10. */
module Growth {
  import opened BooleanArrayLists

  /** `c` is 10 doubled zero or more times. */
  predicate IsDoublingOfTen(c: nat)
    decreases c
  {
    c == InitialGrowth || (c > InitialGrowth && c % 2 == 0 && IsDoublingOfTen(c / 2))
  }

  /** The shape of a list grown only by `add` from an empty buffer. */
  predicate GrownByDoubling(l: BooleanArrayList) {
    && Valid(l)
    && (if Capacity(l) == 0 then l.size == 0
        else IsDoublingOfTen(Capacity(l)) && (Capacity(l) == InitialGrowth || Capacity(l) < 2 * l.size))
  }

  lemma AddKeepsDoubling(l: BooleanArrayList, e: bool)
    requires GrownByDoubling(l)
    ensures GrownByDoubling(Add(l, e))
  {
  }

  lemma {:induction false} AddAllKeepsDoubling(l: BooleanArrayList, xs: seq<bool>)
    requires GrownByDoubling(l)
    ensures GrownByDoubling(AddAll(l, xs))
    decreases |xs|
  {
    if xs != [] {
      AddKeepsDoubling(l, xs[0]);
      AddAllKeepsDoubling(Add(l, xs[0]), xs[1..]);
    }
  }

  /** Appending `xs` to a fresh list with no initial capacity keeps the
      values in order and leaves a capacity produced by doubling: at least
      the length, and less than twice it beyond the first 10 slots. */
  lemma {:induction false} AppendsFromEmpty(xs: seq<bool>)
    ensures Elements(AddAll(New(0), xs)) == xs
    ensures xs == [] ==> Capacity(AddAll(New(0), xs)) == 0
    ensures xs != [] ==> IsDoublingOfTen(Capacity(AddAll(New(0), xs)))
    ensures |xs| <= Capacity(AddAll(New(0), xs))
    ensures Capacity(AddAll(New(0), xs)) <= InitialGrowth || Capacity(AddAll(New(0), xs)) < 2 * |xs|
  {
    AddAllKeepsDoubling(New(0), xs);
  }
}

=== FILE: iterator.dfy ===
/** The cursor iterator of the list. It holds the list it walks and a cursor
    `index`; `next()` reads `get(index++)` and `remove()` calls
    `removeAtIndex(--index)`. In both, the cursor moves before the delegated
    call, so it has moved even when that call raises. The boxed and the
    unboxed iterator of the list behave identically and are one type here. */
module Iterators {
  import opened Results
  import opened Sequences
  import opened BooleanArrayLists

  datatype Iterator = Iterator(list: BooleanArrayList, index: int)

  /** What a call returned or raised, and the iterator state after it. */
  datatype Step<T> = Step(outcome: Result<T>, after: Iterator)

  /** `iterator()`: a cursor before the first element. */
  function IteratorOf(l: BooleanArrayList): (it: Iterator)
    requires Valid(l)
    ensures it.list == l && it.index == 0
    ensures Traverse(it) == Elements(l)
  {
    Iterator(l, 0)
  }

  /** `hasNext()`. */
  function HasNext(it: Iterator): (r: bool)
    requires Valid(it.list)
    ensures r <==> it.index < |Elements(it.list)|
    ensures it.index >= 0 ==> (r <==> Next(it).outcome.Ok?)
  {
    it.list.size > it.index
  }

  /** `next()`: the element under the cursor, then the cursor one further. */
  function Next(it: Iterator): (s: Step<bool>)
    requires Valid(it.list)
    ensures s.after == Iterator(it.list, it.index + 1)
    ensures s.outcome.Ok? <==> 0 <= it.index < |Elements(it.list)|
    ensures s.outcome.Ok? ==> s.outcome.value == Elements(it.list)[it.index]
  {
    var i := it.index;
    Step(Get(it.list, i), it.(index := i + 1))
  }

  /** `remove()`: the cursor steps back one and the element it now points
      at is removed; the list is unchanged when the removal raises. */
  function Remove(it: Iterator): (s: Step<()>)
    requires Valid(it.list)
    ensures s.after.index == it.index - 1 && Valid(s.after.list)
    ensures s.outcome.Ok? <==> 1 <= it.index <= |Elements(it.list)|
    ensures s.outcome.Err? ==> s.after.list == it.list
    ensures s.outcome.Ok? ==>
              Elements(s.after.list) == Elements(it.list)[..it.index - 1] + Elements(it.list)[it.index..]
  {
    var i := it.index - 1;
    match RemoveAtIndex(it.list, i)
    case Ok(l) => Step(Ok(()), Iterator(l, i))
    case Err(e) => Step(Err(e), Iterator(it.list, i))
  }

  /** `remove()` as written, over `RemoveAtIndexAsWritten`, with the cursor
      an `Int`. It agrees with `Remove` except on the paths where the written
      `removeAtIndex` raises nothing: at cursor 0 on an empty list it leaves
      a length of -1 behind, and at a cursor within `size` above
      `Int.MIN_VALUE` it drops the last element. At `Int.MIN_VALUE` itself
      the cursor wraps to `Int.MAX_VALUE`, and the removal fails. */
  function RemoveAsWritten(it: Iterator): (s: Step<()>)
    requires Valid(it.list) && it.list.size <= IntMax && IsInt(it.index)
    ensures IntMin < it.index ==> s.after.index == it.index - 1
    ensures it.index == IntMin ==> s.after.index == IntMax && s.outcome == Err(IndexOutOfBounds)
    ensures !(it.list.size == 0 && it.index == 0) && IntMin + it.list.size < it.index ==> s == Remove(it)
    ensures (s.outcome.Ok? && !Valid(s.after.list)) <==> (it.list.size == 0 && it.index == 0)
    ensures s.outcome.Ok? && !Valid(s.after.list) ==> s.after.list == BooleanArrayList(it.list.data, -1)
    ensures IntMin < it.index <= IntMin + it.list.size ==>
              s.outcome.Ok? && Valid(s.after.list) && Elements(s.after.list) == Elements(it.list)[..it.list.size - 1]
  {
    var i := WrapInt(it.index - 1);
    assert IntMin < it.index ==> i == it.index - 1;
    match RemoveAtIndexAsWritten(it.list, i)
    case Ok(l) => Step(Ok(()), Iterator(l, i))
    case Err(e) => Step(Err(e), Iterator(it.list, i))
  }

  /** The exhibit: `remove()` before any `next()` on a fresh empty list
      raises nothing and leaves a length of -1, where the corrected removal
      fails. */
  lemma RemoveBeforeNextOnEmptyCorruptsSize()
    ensures RemoveAsWritten(IteratorOf(New(0))) == Step(Ok(()), Iterator(BooleanArrayList([], -1), -1))
    ensures Remove(IteratorOf(New(0))).outcome == Err(IndexOutOfBounds)
  {
  }

  /** `remove()` right after a successful `next()` deletes the element that
      `next()` returned, and the following `next()` returns the element that
      used to come after it. */
  lemma RemoveAfterNext(it: Iterator)
    requires Valid(it.list) && 0 <= it.index < it.list.size
    ensures var s := Next(it);
            var t := Remove(s.after);
            && t.outcome.Ok?
            && t.after.index == it.index
            && Elements(t.after.list) == Elements(it.list)[..it.index] + Elements(it.list)[it.index + 1..]
            && (it.index + 1 < it.list.size ==>
                  Next(t.after).outcome == Ok(Elements(it.list)[it.index + 1]))
  {
  }

  /** The values a `for` loop over the iterator sees: `next()` while
      `hasNext()`. From a cursor at `index`, exactly the elements from
      `index` on, in order. */
  function Traverse(it: Iterator): (r: seq<bool>)
    requires Valid(it.list) && 0 <= it.index
    ensures it.index <= it.list.size ==> r == Elements(it.list)[it.index..]
    ensures it.list.size <= it.index ==> r == []
    decreases it.list.size - it.index
  {
    if !HasNext(it) then []
    else
      var s := Next(it);
      [s.outcome.value] + Traverse(s.after)
  }

  lemma WithoutFrom(xs: seq<bool>, i: int, v: bool)
    requires 0 <= i < |xs|
    ensures xs[..i] + Without(xs[i..], v) ==
            if xs[i] == v then xs[..i] + Without(xs[i + 1..], v)
            else xs[..i + 1] + Without(xs[i + 1..], v)
  {
  }

  /** `next()` then `remove()`, in terms of the elements before and after. */
  lemma NextRemoveStep(it: Iterator)
    requires Valid(it.list) && 0 <= it.index < it.list.size
    ensures var t := Remove(Next(it).after);
            && t.after.index == it.index && Valid(t.after.list) && t.after.list.size == it.list.size - 1
            && Elements(t.after.list)[..it.index] == Elements(it.list)[..it.index]
            && Elements(t.after.list)[it.index..] == Elements(it.list)[it.index + 1..]
  {
  }

  /** A loop that removes through the iterator every element equal to `v`
      it meets; the removals shift later elements under the cursor, and the
      loop still sees each element once. */
  function RemoveMatching(it: Iterator, v: bool): (r: BooleanArrayList)
    requires Valid(it.list) && 0 <= it.index <= it.list.size
    ensures Valid(r)
    ensures Elements(r) == Elements(it.list)[..it.index] + Without(Elements(it.list)[it.index..], v)
    decreases it.list.size - it.index
  {
    if !HasNext(it) then it.list
    else
      var s := Next(it);
      WithoutFrom(Elements(it.list), it.index, v);
      if s.outcome.value == v then
        NextRemoveStep(it);
        RemoveMatching(Remove(s.after).after, v)
      else
        RemoveMatching(s.after, v)
  }
}

=== FILE: results.dfy ===
/** Failure-carrying results for the operations of the boolean list. */
module Results {

  /** The exceptions the list can raise. `IndexOutOfBounds` covers both the
      list's own `index >= size` checks and the platform's array-index
      failures (on the JVM the latter is a subclass of the former);
      `IllegalArgument` is what a range copy raises when `from > to`. */
  datatype Error = IndexOutOfBounds | IllegalArgument

  /** Either the value an operation returned or the exception it raised. */
  datatype Result<+T> = Ok(value: T) | Err(error: Error) {

    predicate IsFailure() {
      Err?
    }

    function PropagateFailure<U>(): Result<U>
      requires Err?
    {
      Err(error)
    }

    function Extract(): T
      requires Ok?
    {
      value
    }
  }

  /** Kotlin's nullable value: `null` is `None`. */
  datatype Option<+T> = None | Some(value: T)
}

=== FILE: sequences.dfy ===
/** Reference definitions on plain sequences, independent of the list's
    buffer representation; the list operations are specified against them. */
module Sequences {
  import opened Results

  /** `s` with its first occurrence of `e` deleted, or `s` itself when `e`
      does not occur. */
  function DeleteFirst(s: seq<bool>, e: bool): (r: seq<bool>)
    ensures e !in s ==> r == s
    ensures e in s ==> |r| == |s| - 1
    ensures multiset(r) == multiset(s) - multiset{e}
  {
    if s == [] then []
    else
      assert s == [s[0]] + s[1..];
      if s[0] == e then s[1..] else [s[0]] + DeleteFirst(s[1..], e)
  }

  /** Deleting the first occurrence means cutting out the least index that
      holds `e`. */
  lemma {:induction false} DeleteFirstAt(s: seq<bool>, e: bool, k: int)
    requires 0 <= k < |s| && s[k] == e
    requires forall j :: 0 <= j < k ==> s[j] != e
    ensures DeleteFirst(s, e) == s[..k] + s[k + 1..]
  {
    if k > 0 {
      var t := s[1..];
      calc {
        DeleteFirst(s, e);
        [s[0]] + DeleteFirst(t, e);
        { DeleteFirstAt(t, e, k - 1); }
        [s[0]] + (t[..k - 1] + t[k..]);
        { assert t[..k - 1] == s[1..k] && t[k..] == s[k + 1..]; }
        [s[0]] + (s[1..k] + s[k + 1..]);
        { assert s[..k] == [s[0]] + s[1..k]; }
        s[..k] + s[k + 1..];
      }
    }
  }

  /** Deletes, for each element of `xs` in order, its first remaining
      occurrence in `s`. */
  function DeleteEach(s: seq<bool>, xs: seq<bool>): (r: seq<bool>)
    ensures multiset(r) == multiset(s) - multiset(xs)
    decreases |xs|
  {
    if xs == [] then s
    else
      var r := DeleteEach(DeleteFirst(s, xs[0]), xs[1..]);
      assert xs == [xs[0]] + xs[1..];
      MultisetDifferenceTwice(multiset(s), multiset{xs[0]}, multiset(xs[1..]));
      r
  }

  lemma MultisetDifferenceTwice(a: multiset<bool>, b: multiset<bool>, c: multiset<bool>)
    ensures (a - b) - c == a - (b + c)
  {
  }

  /** The present values of a sequence of nullable values, in order. */
  function Present(xs: seq<Option<bool>>): (r: seq<bool>)
    ensures |r| <= |xs|
    ensures forall b :: b in r <==> Some(b) in xs
  {
    if xs == [] then []
    else
      assert xs == [xs[0]] + xs[1..];
      match xs[0]
      case None => Present(xs[1..])
      case Some(b) => [b] + Present(xs[1..])
  }

  /** `s` without any element equal to `v`, order kept. */
  function Without(s: seq<bool>, v: bool): (r: seq<bool>)
    ensures v !in r
    ensures forall b :: b in r <==> b in s && b != v
    ensures multiset(r)[!v] == multiset(s)[!v]
  {
    if s == [] then []
    else
      assert s == [s[0]] + s[1..];
      if s[0] == v then Without(s[1..], v) else [s[0]] + Without(s[1..], v)
  }
}
